=== FILE: README.md ===
# DapperDemo generic repository — a Dafny model

DapperDemo wraps Dapper and Dapper.Contrib in a generic repository,
`DapperRepository<TEntity>`. It has two pieces of real logic, and this project
models both.

- **`DapperSqlHelper`** builds parameterised `insert into T (cols) values (@cols)`
  and `update T set c = @c, ... where K = @K` text from an object's public
  properties, using these rules:
  - a `Nullable<T>` property is written only while it holds a value;
  - any other property is written unless its getter is virtual (a navigation
    property such as `Album.Tracks`);
  - the UPDATE also leaves the key out of its SET list, but only on the
    non-nullable branch.
- **`DapperRepository`**:
  - The constructor picks the primary key from `[Key]` and `[ExplicitKey]`
    annotations, falling back to `"Id"`/`"Int32"`.
  - `InsertAsync` has three paths, all inside `begin`/`commit`/`rollback`:
    - an `[ExplicitKey]` `int` key takes max + 1;
    - a database-generated `int` key is written back from the driver;
    - a `string` key goes through the helper's INSERT.
  - `DeleteAsync`, `UpdateAsync` and `GetAsync(string)` swallow failures and
    answer false, null or no rows.

Reflection is replaced by an explicit descriptor (`Metadata`):
- A class is a sequence of `Property(name, typeName, isVirtual, isKey, isExplicitKey)`.
- An object is a sequence of `Slot(property, value)`.
- A property counts as nullable exactly when its type name is ``Nullable`1``,
  which is what `PropertyType.Name` reports for `int?` and the like. So a
  nullable key's type tag is neither `Int32` nor `String`, as in the source.

The database is an oracle (`Repository.Driver`): it says which steps throw and
which identity value `Insert` returns. A transaction is a snapshot of the
table that a rollback restores. `Repository.Insert` returns four things:
- the caller's result (a value, or an exception that escapes);
- the table afterwards;
- the caller's object afterwards (`SetValue` changes it even when the insert
  is later rolled back);
- the commands sent, in order.

.NET integer behaviour is explicit (`Clr`):
- the `+ 1` after `Convert.ToInt32` and the `(int)` cast of `Insert`'s `long`
  wrap to 32 bits;
- `Convert.ToInt32` itself is checked.

Module layout:
- `wrappers.dfy`: `Option`.
- `clr.dfy`: 32-bit integers.
- `metadata.dfy`: the descriptor and the constructor's key resolution.
- `sql_text.dfy`: `DapperSqlHelper`.
- `repository.dfy`: `DapperRepository`.
- `fixtures.dfy`: the demo's model classes as descriptors.

Each SQL builder is written twice:
- a method that follows the code: append `"x, "` per property, then
  `Substring(0, Length - 2)`;
- a function saying what the text is: the written names joined by `", "`.

The method's postcondition proves the two are equal for every input. With no
writable property, the cut eats the `" ("` (or the `"t "` of `"set "`)
instead of a separator. The model reproduces that text as written:
`insert into T) values)` and `update T se where K = @K`.

Some behaviours of the code are easy to miss, and the model keeps them:
- `GetAllAsync` has no `try`, so its failures escape to the caller; they do
  not become an empty sequence.
- The zero-column case produces the text above and raises nothing.
- A key type other than `Int32`/`String` writes nothing but still commits and
  returns the object.
- `UpdateAsync` calls Dapper.Contrib's `UpdateAsync`; the helper's UPDATE
  builder is not called anywhere (that line is commented out). It is modelled
  on its own.

## Model

| member | source | states |
|---|---|---|
| Metadata.FirstWhere | DapperDemo/Data/DapperRepository.cs:17-23 | `Where(p)` then `Count() > 0` / `First()`: the index of a property satisfying the filter with none before it, or none exactly when no property satisfies it |
| Metadata.ResolveKey | DapperDemo/Data/DapperRepository.cs:11-42 | the key is not identity iff some property has `[ExplicitKey]`, and then it is the first such property (name and type name), even when `[Key]` is also present; otherwise the first `[Key]` property; with neither annotation, `"Id"`, `"Int32"`, identity |
| Metadata.AnnotatedKeyIsFound | DapperDemo/Data/DapperRepository.cs:109 | when some property carries `[Key]` or `[ExplicitKey]`, `GetProperty(primaryKeyName)` finds a property; only the `"Id"` default can miss |
| Clr.Wrap32 | DapperDemo/Data/DapperRepository.cs:120 | unchecked `int` arithmetic: the result is a 32-bit value congruent to the input modulo 2^32, and equals the input when that is already in range |
| SqlText.Written | DapperDemo/Data/DapperSqlHelper.cs:55-73 | the properties a builder pass writes: a slot is kept iff it is a property of the object satisfying the rule, and never more slots than the object has |
| SqlText.AppendColumnNames | DapperDemo/Data/DapperSqlHelper.cs:55-73 | the first INSERT loop appends, to its start text, each written property's name followed by `", "`, in declaration order |
| SqlText.AppendParameterNames | DapperDemo/Data/DapperSqlHelper.cs:82-96 | the second INSERT loop appends `"@" + name + ", "` for the same properties in the same order, so every value is a placeholder and never a literal |
| SqlText.CutSeparator | DapperDemo/Data/DapperSqlHelper.cs:76 | `Substring(0, Length - 2)` after such a loop removes exactly the trailing `", "` when something was appended, and otherwise the last two characters of the start text |
| SqlText.GetInsertStatement | DapperDemo/Data/DapperSqlHelper.cs:44-103 | the text is `insert into T (` + written names joined by `", "` + `) values (` + the same names with `@` joined by `", "` + `)`, with no trailing comma; with no written property it is `insert into T) values)` |
| SqlText.InsertAssembled | DapperDemo/Data/DapperSqlHelper.cs:76-99 | the two cuts and the `") values ("` / `")"` pieces assemble into that text, including the zero-column case where the first cut removes `" ("` |
| SqlText.GetUpdateStatement | DapperDemo/Data/DapperSqlHelper.cs:10-42 | the text is `update T set ` + `Name = @Name` for each SET property joined by `", "` + ` where K = @K`; with an empty SET list the cut leaves `update T se where K = @K` |
| SqlText.UpdateAssembled | DapperDemo/Data/DapperSqlHelper.cs:37-39 | the cut and the WHERE clause on the key assemble into that text |
| SqlText.NullableWrittenIffHasValue | DapperDemo/Data/DapperSqlHelper.cs:58-66 | a `Nullable<T>` property is written by the INSERT iff it holds a value, and the same holds for the SET list (lines 17-24), even when it is named like the key |
| SqlText.NavigationNeverWritten | DapperDemo/Data/DapperSqlHelper.cs:68-72 | every property either statement writes is nullable or has a non-virtual getter: a non-nullable navigation property never appears (also lines 25-34, 92-95) |
| SqlText.PlainPropertiesWritten | DapperDemo/Data/DapperSqlHelper.cs:25-33 | a non-nullable, non-virtual property is always in the INSERT (the key included) and is in the SET list iff its name differs from the key name |
| SqlText.SameShapeSameSql | DapperDemo/Data/DapperSqlHelper.cs:10-103 | both texts depend only on each property's name, nullability, virtual getter and nullness, plus the table and key names; two objects alike in those give identical text, whatever their values |
| Repository.MaxKey | DapperDemo/Data/DapperRepository.cs:118-120 | `select max(K)` skips NULLs: none iff no row holds an integer key; otherwise a key some row holds and no row's key exceeds |
| Clr.ConvertToInt32 | DapperDemo/Data/DapperRepository.cs:120 | `Convert.ToInt32` of the `MAX` scalar gives a value iff there is one and it lies in the 32-bit range, and then that same value |
| Metadata.PropertyIndex | DapperDemo/Data/DapperRepository.cs:109 | `GetProperty(primaryKeyName)`: the first property with that name, or null iff no property has it |
| Metadata.SetValue | DapperDemo/Data/DapperRepository.cs:122 | storing a value in one property of an object replaces that property's value and leaves every other property as it was |
| Metadata.SetInt32 | DapperDemo/Data/DapperRepository.cs:131 | `PropertyInfo.SetValue` with a boxed `int` (here and at line 122) succeeds iff the property's type takes an `int`, and then only that property changes, to the `int` |
| Repository.Commit | DapperDemo/Data/DapperRepository.cs:141 | `commit transaction` is the last command; the attempt is committed iff the commit does not throw, keeping the table written so far |
| Repository.TryInsert | DapperDemo/Data/DapperRepository.cs:105-143 | the attempt's trace starts with the `begin transaction` sent just before the `try`; the block dispatches on the key's type name and identity flag; when it reaches the commit, it has added at most the caller's (possibly re-keyed) object as one row; it changes no property of the object except the key |
| Repository.ExplicitIntInsert | DapperDemo/Data/DapperRepository.cs:115-125 | the explicit-`int` path: the commands start with begin and `select max(K) from T`; a throwing `select max` or a failed conversion fails the attempt with the object untouched; a committed attempt has appended exactly the object it returns, and only the key property of the object can have changed |
| Repository.IdentityIntInsert | DapperDemo/Data/DapperRepository.cs:126-132 | the identity-`int` path: the commands start with begin and the insert of the unkeyed object, so the row is sent before the driver's id is set; a throwing write fails the attempt with the object untouched; a committed attempt has appended exactly the object it returns, and only the key property of the object can have changed |
| Repository.StringKeyInsert | DapperDemo/Data/DapperRepository.cs:134-139 | the `string`-key path never modifies the object; the commands start with begin and the helper's INSERT; a throwing write fails the attempt; a committed attempt has appended the object as the one new row |
| Repository.Insert | DapperDemo/Data/DapperRepository.cs:99-151 | on success the result is the object, the last command is the commit, and the table gained at most that row; on every other end the table is unchanged; a null result comes after a rollback; only the key property of the caller's object can change; the call throws exactly when the open (line 103) or `begin transaction` (line 105), both outside the `try`, throws, or when the `try` block failed and its `rollback transaction` (line 147) throws |
| Repository.WriteNextKey | DapperDemo/Data/DapperRepository.cs:122-124 | when the key property takes an `int`, the object gets key `Wrap32(max + 1)` before `Insert` is sent with it; when it does not, `SetValue` throws and nothing is sent; the attempt commits iff the property takes an `int` and neither the write nor the commit throws, and then the table gained exactly that object |
| Repository.ExplicitKeySet | DapperDemo/Data/DapperRepository.cs:115-124 | on the explicit-`int` path, once `select max` did not throw, `Convert.ToInt32` gave a value and the key property exists, what follows is that write step, after begin and `select max(K) from T` |
| Repository.ExplicitIntKeyTakesMaxPlusOne | DapperDemo/Data/DapperRepository.cs:115-125 | when open, begin, `select max`, the write and the commit do not throw (a rollback may) and the key property takes an `int`, an `[ExplicitKey]` `int` insert sends begin, `select max(K) from T`, the insert of the object keyed max + 1, commit; it appends that object and returns it |
| Repository.MaxPlusOneIsFresh | DapperDemo/Data/DapperRepository.cs:118-122 | below `int.MaxValue`, max + 1 does not wrap and differs from every key already in the table |
| Repository.SetKeyReadsBack | DapperDemo/Data/DapperRepository.cs:122 | `SetValue` of an `int` on the key property succeeds iff the property's type takes an `int`, and then the object's key column reads that `int` |
| Repository.ExplicitKeyOutlivesRollback | DapperDemo/Data/DapperRepository.cs:120-124 | when the write throws on the explicit path and open, begin, `select max` and rollback do not, the insert answers null and the table is unchanged, but the caller's object keeps the new key set at line 122 |
| Repository.IdentityIntKeyWrittenBack | DapperDemo/Data/DapperRepository.cs:126-132 | for a database-generated `int` key whose property takes an `int`, when open, begin, the write and the commit do not throw: the object is written first, then the driver's id cast to `int` is set as its key; the keyed object is appended and returned |
| Repository.UnsettableIntKeyNeverInserts | DapperDemo/Data/DapperRepository.cs:109-132 | for an `Int32` key, when `GetProperty` at line 109 gives null or the property does not take an `int` (a `string Id` under the default key), `SetValue` throws, so whatever the database does the insert never returns an object, the table is unchanged, and the object is untouched |
| Repository.StringKeyUsesHelperStatement | DapperDemo/Data/DapperRepository.cs:134-139 | for a `String` key, when open, begin, the write and the commit do not throw: the object is not modified; the commands are begin, the helper's INSERT text executed with the object as parameters, commit; the object is appended and returned |
| Repository.OtherKeyTypeWritesNothing | DapperDemo/Data/DapperRepository.cs:112-142 | for a key type name other than `Int32` and `String`, when only open, begin and commit are known not to throw: no row is written, yet the commands are begin and commit and the unchanged object is returned |
| Repository.FailedCommitRollsBack | DapperDemo/Data/DapperRepository.cs:141-148 | on any path, a commit that throws is followed by `rollback transaction` and a null answer, with the table as it was |
| Repository.StepFailureIsRolledBack | DapperDemo/Data/DapperRepository.cs:118-148 | a `select max` that throws on the explicit path, or a row write that throws on any `Int32` or `String` path, is followed by `rollback transaction` and a null answer, with the table as it was |
| Repository.FailureIsRolledBack | DapperDemo/Data/DapperRepository.cs:144-149 | any failure inside the `try`, followed by a rollback that succeeds, is answered with null, the table as before the insert, and the object as the failed block left it |
| Repository.InsertThenGetAll | DapperDemo/Data/DapperRepository.cs:87-97 | after a successful insert through an `Int32` or `String` key, the table is the old one plus the returned object, and `GetAllAsync` returns it among the rows |
| Repository.Delete | DapperDemo/Data/DapperRepository.cs:44-62 | answers true iff the driver did not throw, ignoring the driver's own deleted/not-deleted answer; on false the table is unchanged |
| Repository.Update | DapperDemo/Data/DapperRepository.cs:153-170 | an open that throws escapes; an update that throws gives null and leaves the table; otherwise the object passed in is returned |
| Repository.Query | DapperDemo/Data/DapperRepository.cs:64-77 | the query text reaches the driver unchanged; a driver failure gives no rows, otherwise the driver's rows |
| Repository.GetAll | DapperDemo/Data/DapperRepository.cs:87-97 | a failure escapes to the caller (no `try`); otherwise exactly the table's rows come back |
| Fixtures.CustomerKey | DapperDemo/Models/Customer.cs:13-14 | `Customer` resolves to key `CustomerId`, type `Int32`, not identity |
| Fixtures.CustomersKey | DapperDemo/Models/Customers.cs:14-15 | `Customers` resolves to key `CustomerID`, type `String`, not identity |
| Fixtures.InstrumentKey | DapperDemo/Models/Instrument.cs:12-13 | `Instrument` resolves to key `InstrumentId`, type `Int32`, identity |
| Fixtures.AlbumKey | DapperDemo/Models/Album.cs:15-20 | `Album` has no annotation, so it gets the `"Id"`/`"Int32"` default, and it has no `Id` property |
| Fixtures.AlbumInsertNeverSucceeds | DapperDemo/Models/Album.cs:15-20 | so `InsertAsync` on an `Album` never returns an object and never changes the table |
| Fixtures.GenreKey | DapperDemo/Models/Genre.cs:15-18 | `Genre` has no annotation, so it gets the `"Id"`/`"Int32"` default, and it has no `Id` property |
| Fixtures.GenreInsertNeverSucceeds | DapperDemo/Models/Genre.cs:15-18 | so `InsertAsync` on a `Genre` never returns an object and never changes the table |
| Fixtures.CustomerRepository | DapperDemo/Models/Customer.cs:13-14 | the `Customer` repository's key is `CustomerId`, `Int32`, not identity, and it names the first property |
| Fixtures.CustomerAfter41Gets42 | DapperDemo/Data/DapperRepository.cs:118-124 | with 41 the largest `CustomerId`, a new customer is stored and returned with `CustomerId` 42 |
| Fixtures.SampleTrackColumns | DapperDemo/Models/Track.cs:5-14 | for a track whose `AlbumId` and `Bytes` are null, those are left out of both statements and the set `GenreId` is written; `TrackId` is in the INSERT but not in the SET list |

## Left out

- `GetAsync(filter, orderBy, includeProperties)`: its body only throws `NotImplementedException`.
- The connection string and `new SqlConnection(...)`: every operation constructs its connection outside any `try`. Failures there are not modelled.
- Opening the connection is modelled as a step that can throw. For `InsertAsync` that is `AtOpen`; for `UpdateAsync` it is `openThrows`. `DeleteAsync` and `GetAsync(string)` do not call `Open` themselves.
- The async `Task` machinery and `using` disposal: each call is one atomic transition.
- Two writers racing on max + 1: this is concurrency, and each insert is modelled as a single-threaded transaction.
- The internals of Dapper.Contrib's `Insert`, `UpdateAsync`, `DeleteAsync`, `GetAllAsync` and `QueryAsync`, and real SQL execution. The driver's answers are parameters.
  - `Delete` and `Update` take the table the driver leaves as given.
  - `Insert`'s stored row is the object with its key set.
- Repository.Insert: a MAX over an empty table (a database NULL) is modelled as a failed conversion, so the insert rolls back and returns null.
- Repository.Insert: a `rollback transaction` that itself throws lets its exception escape. The table is still taken as unchanged, since an uncommitted transaction is discarded when the connection closes.
- Values: only an integer key's value matters. Decimal, DateTime and other values are opaque (`Other`), because the builders look only at nullness.
- Metadata.SetInt32: which property types take a boxed `int` is approximated by type name: `Int32`, `Object`, the widenings `Int64`, `Single` and `Double`, and every `Nullable<T>` (the descriptor does not record `T`). Any other type is taken to throw.
- Properties without a public getter: every descriptor property is taken to have one. For a property without one, `GetGetMethod()` returns null and the `IsVirtual` test in `DapperSqlHelper.cs` throws; the model never reaches that.
- Property hiding (`GetProperty` throwing `AmbiguousMatchException`): `PropertyIndex` takes the first property with the name.
- The object's runtime class is taken to be `TEntity` itself (`Conforms`). The source's helper reads `Entity.GetType()`, which could be a subclass.
- The `[Table]` attribute: the repository uses the class name (`entityName`) for its own SQL, and Contrib's table mapping is not modelled.
- `Startup.cs`, `Program.cs`, `DataContext.cs` and `IRepository.cs`: host wiring, a connection wrapper and an interface.

=== FILE: clr.dfy ===
/**
 * The .NET integer behaviour the repository relies on: `int` is a 32-bit
 * two's-complement integer, C# arithmetic and `(int)` casts from `long` are
 * unchecked (they wrap), and `Convert.ToInt32` is checked (it throws).
 */
module Clr {
  import opened Wrappers

  const Int32Min: int := -0x8000_0000
  const Int32Max: int := 0x7FFF_FFFF
  const Int32Modulus: int := 0x1_0000_0000

  predicate InInt32(x: int) {
    Int32Min <= x <= Int32Max
  }

  /** Unchecked narrowing to `int`: the unique 32-bit value congruent to `x`. */
  function Wrap32(x: int): (r: int)
    ensures InInt32(r)
    ensures (x - r) % Int32Modulus == 0
    ensures InInt32(x) ==> r == x
  {
    var k := (x - Int32Min) % Int32Modulus;
    assert x - Int32Min == (x - Int32Min) / Int32Modulus * Int32Modulus + k;
    k + Int32Min
  }

  /** `Convert.ToInt32` applied to the `MAX` scalar.  An integer outside
      the 32-bit range overflows and throws.  `None` stands for the scalar
      of an empty table; this model chooses to treat it as a failed
      conversion too (`None` result), without committing to what the
      driver hands back for a database NULL. */
  function ConvertToInt32(scalar: Option<int>): (r: Option<int>)
    ensures r.Some? <==> scalar.Some? && InInt32(scalar.value)
    ensures r.Some? ==> r.value == scalar.value
  {
    if scalar.Some? && InInt32(scalar.value) then scalar else None
  }
}

=== FILE: fixtures.dfy ===
/**
 * The demo's model classes as descriptors, and what the repository and the
 * helper make of them.
 */
module Fixtures {
  import opened Wrappers
  import opened Clr
  import opened Metadata
  import SqlText
  import opened Repository

  function Plain(name: string, typeName: string): Property {
    Property(name, typeName, false, false, false)
  }

  function Navigation(name: string, typeName: string): Property {
    Property(name, typeName, true, false, false)
  }

  /** `Customer`: an `[ExplicitKey]` `int` key. */
  const CustomerType: TypeDescriptor := [
    Property("CustomerId", "Int32", false, false, true),
    Plain("FirstName", "String"), Plain("LastName", "String"), Plain("Company", "String"),
    Plain("Address", "String"), Plain("City", "String"), Plain("State", "String"),
    Plain("Country", "String"), Plain("PostalCode", "String"), Plain("Phone", "String"),
    Plain("Fax", "String"), Plain("Email", "String")]

  /** `Customers`: an `[ExplicitKey]` `string` key. */
  const CustomersType: TypeDescriptor := [
    Property("CustomerID", "String", false, false, true),
    Plain("CompanyName", "String"), Plain("ContactName", "String"), Plain("ContactTitle", "String"),
    Plain("Address", "String"), Plain("City", "String"), Plain("Region", "String"),
    Plain("PostalCode", "String"), Plain("Country", "String"), Plain("Phone", "String"),
    Plain("Fax", "String")]

  /** `Instrument`: a `[Key]` (database-generated) `int` key. */
  const InstrumentType: TypeDescriptor := [
    Property("InstrumentId", "Int32", false, true, false),
    Plain("Name", "String")]

  /** `Album`: no annotation, two navigation properties. */
  const AlbumType: TypeDescriptor := [
    Plain("AlbumId", "Int32"), Plain("Title", "String"), Plain("ArtistId", "Int32"),
    Navigation("Artist", "Artist"), Navigation("Tracks", "ICollection`1")]

  /** `Genre`: no annotation, one navigation property. */
  const GenreType: TypeDescriptor := [
    Plain("GenreId", "Int32"), Plain("Name", "String"), Navigation("Tracks", "ICollection`1")]

  /** `Track`: an `[ExplicitKey]` `int` key and three `int?` properties. */
  const TrackType: TypeDescriptor := [
    Property("TrackId", "Int32", false, false, true),
    Plain("Name", "String"), Plain("AlbumId", NullableTypeName), Plain("MediaTypeId", "Int32"),
    Plain("GenreId", NullableTypeName), Plain("Composer", "String"), Plain("Milliseconds", "Int32"),
    Plain("Bytes", NullableTypeName), Plain("UnitPrice", "Decimal")]

  lemma CustomerKey()
    ensures ResolveKey(CustomerType) == KeyInfo("CustomerId", "Int32", true)
  {
  }

  lemma CustomersKey()
    ensures ResolveKey(CustomersType) == KeyInfo("CustomerID", "String", true)
  {
  }

  lemma InstrumentKey()
    ensures ResolveKey(InstrumentType) == KeyInfo("InstrumentId", "Int32", false)
  {
  }

  lemma AlbumKey()
    ensures ResolveKey(AlbumType) == DefaultKey
    ensures PropertyIndex(AlbumType, "Id").None?
  {
  }

  /** No `Id` property and no annotation: every insert of an `Album` is
      rolled back or throws, so `InsertAsync` never returns one. */
  lemma AlbumInsertNeverSucceeds(db: Table, e: Entity, d: Driver)
    requires Conforms(e, AlbumType)
    ensures var o := Insert(NewRepository("Album", AlbumType), db, e, d);
      !(o.result.Returned? && o.result.value.Some?) && o.table == db
  {
  }

  lemma GenreKey()
    ensures ResolveKey(GenreType) == DefaultKey
    ensures PropertyIndex(GenreType, "Id").None?
  {
  }

  /** `Genre` is keyed `GenreId`, not `Id`, and carries no annotation: like
      `Album`, `InsertAsync` never returns one. */
  lemma GenreInsertNeverSucceeds(db: Table, e: Entity, d: Driver)
    requires Conforms(e, GenreType)
    ensures var o := Insert(NewRepository("Genre", GenreType), db, e, d);
      !(o.result.Returned? && o.result.value.Some?) && o.table == db
  {
  }

  /** The `Customer` repository uses `CustomerId`, the first slot, as its
      application-assigned key. */
  lemma CustomerRepository()
    ensures NewRepository("Customer", CustomerType) == Repo("Customer", CustomerType, KeyInfo("CustomerId", "Int32", true))
    ensures PropertyIndex(CustomerType, "CustomerId") == Some(0)
  {
  }

  /** With 41 as the largest `CustomerId`, the new customer gets 42. */
  lemma CustomerAfter41Gets42(db: Table, e: Entity)
    requires Conforms(e, CustomerType)
    requires MaxKey(db, "CustomerId") == Some(41)
    ensures var o := Insert(NewRepository("Customer", CustomerType), db, e, Driver({}, 0));
      && o.result == Returned(Some(o.entity))
      && KeyColumn(o.entity, "CustomerId") == Some(42)
      && o.table == db + [o.entity]
  {
    CustomerRepository();
    var r := NewRepository("Customer", CustomerType);
    ExplicitIntKeyTakesMaxPlusOne(r, db, e, Driver({}, 0), 41);
    assert Wrap32(41 + 1) == 42;
  }

  /** A track with no album and no byte count. */
  const SampleTrack: Entity := [
    Slot(TrackType[0], Int(3503)), Slot(TrackType[1], Str("Koyaanisqatsi")), Slot(TrackType[2], Null),
    Slot(TrackType[3], Int(2)), Slot(TrackType[4], Int(10)), Slot(TrackType[5], Str("Philip Glass")),
    Slot(TrackType[6], Int(206005)), Slot(TrackType[7], Null), Slot(TrackType[8], Other("0.99"))]

  /** For the sample track: the null `AlbumId` and `Bytes` are left out of
      both statements, the set `GenreId` is written, and the key `TrackId`
      is written by the INSERT but kept out of the SET list. */
  lemma SampleTrackColumns()
    ensures SampleTrack[2] !in SqlText.Written(SampleTrack, SqlText.InInsert)
    ensures SampleTrack[2] !in SqlText.Written(SampleTrack, SqlText.UpdateRule("TrackId"))
    ensures SampleTrack[7] !in SqlText.Written(SampleTrack, SqlText.InInsert)
    ensures SampleTrack[7] !in SqlText.Written(SampleTrack, SqlText.UpdateRule("TrackId"))
    ensures SampleTrack[4] in SqlText.Written(SampleTrack, SqlText.InInsert)
    ensures SampleTrack[0] in SqlText.Written(SampleTrack, SqlText.InInsert)
    ensures SampleTrack[0] !in SqlText.Written(SampleTrack, SqlText.UpdateRule("TrackId"))
  {
  }
}

=== FILE: metadata.dfy ===
/**
 * What reflection tells the repository about an entity class, replaced by an
 * explicit descriptor: the public properties in declaration order, each with
 * its runtime type name, whether its getter is virtual, and its `[Key]` and
 * `[ExplicitKey]` annotations.  Also the repository constructor's choice of
 * primary key.
 */
module Metadata {
  import opened Wrappers

  /** `PropertyType.Name` of every `Nullable<T>` property (`int?`, `decimal?`, ...). */
  const NullableTypeName: string := "Nullable`1"

  /** A property value; only its nullness matters to the SQL builders. */
  datatype Value = Null | Int(i: int) | Str(s: string) | Other(tag: string)

  datatype Property = Property(
    name: string,
    typeName: string,
    isVirtual: bool,
    isKey: bool,
    isExplicitKey: bool)
  {
    /** `Nullable.GetUnderlyingType(PropertyType) != null` */
    predicate IsNullable() {
      typeName == NullableTypeName
    }
  }

  /** The public properties of a class, in the order `GetProperties` yields them. */
  type TypeDescriptor = seq<Property>

  /** One property of an object together with its current value. */
  datatype Slot = Slot(prop: Property, value: Value)

  /** An object: its properties and their current values. */
  type Entity = seq<Slot>

  /** `e` is an instance of the class `t` describes. */
  predicate Conforms(e: Entity, t: TypeDescriptor) {
    |e| == |t| && forall i :: 0 <= i < |e| ==> e[i].prop == t[i]
  }

  /** The object `e` with `v` stored in its `i`-th property. */
  function SetValue(e: Entity, i: nat, v: Value): (r: Entity)
    requires i < |e|
    ensures |r| == |e| && r[i] == Slot(e[i].prop, v)
    ensures forall j :: 0 <= j < |e| && j != i ==> r[j] == e[j]
  {
    e[i := Slot(e[i].prop, v)]
  }

  /** The property types a boxed `int` can be stored in by reflection: the
      type itself, `object`, the primitive widenings, and `int?`.  The
      descriptor does not record a `Nullable<T>`'s `T`, so every nullable
      property is taken to accept it. */
  const Int32Targets: set<string> := {"Int32", "Int64", "Single", "Double", "Object", NullableTypeName}

  predicate AcceptsInt32(p: Property) {
    p.typeName in Int32Targets
  }

  /** `PropertyInfo.SetValue(entity, (int)v)`: stores the value, or throws
      (`None`) when the property's type does not take an `int`. */
  function SetInt32(e: Entity, i: nat, v: int): (r: Option<Entity>)
    requires i < |e|
    ensures r.Some? <==> AcceptsInt32(e[i].prop)
    ensures r.Some? ==> |r.value| == |e| && r.value[i] == Slot(e[i].prop, Int(v))
    ensures r.Some? ==> forall j :: 0 <= j < |e| && j != i ==> r.value[j] == e[j]
  {
    if AcceptsInt32(e[i].prop) then Some(SetValue(e, i, Int(v))) else None
  }

  /** Index of the first element satisfying `p` (LINQ `Where(p).First()`), if any. */
  function FirstWhere<T>(xs: seq<T>, p: T -> bool): (r: Option<nat>)
    ensures r.Some? ==> r.value < |xs| && p(xs[r.value])
    ensures r.Some? ==> forall j :: 0 <= j < r.value ==> !p(xs[j])
    ensures r.None? ==> forall j :: 0 <= j < |xs| ==> !p(xs[j])
  {
    if |xs| == 0 then None
    else if p(xs[0]) then Some(0)
    else match FirstWhere(xs[1..], p)
      case None => None
      case Some(k) => Some(k + 1)
  }

  function HasName(name: string): Property -> bool {
    (p: Property) => p.name == name
  }

  /** `Type.GetProperty(name)`: the first property called `name`, or null
      when there is none. */
  function PropertyIndex(t: TypeDescriptor, name: string): (r: Option<nat>)
    ensures r.Some? ==> r.value < |t| && t[r.value].name == name
    ensures r.Some? ==> forall j :: 0 <= j < r.value ==> t[j].name != name
    ensures r.None? <==> forall j :: 0 <= j < |t| ==> t[j].name != name
  {
    var r := FirstWhere(t, HasName(name));
    assert r.Some? ==> HasName(name)(t[r.value]);
    assert r.Some? ==> forall j :: 0 <= j < r.value ==> !HasName(name)(t[j]);
    assert r.None? ==> forall j :: 0 <= j < |t| ==> !HasName(name)(t[j]);
    r
  }

  /** The same lookup on an object's own properties (`Entity.GetType()`). */
  function SlotIndex(e: Entity, name: string): Option<nat> {
    FirstWhere(e, (s: Slot) => s.prop.name == name)
  }

  /** The repository's idea of the primary key: `primaryKeyName`,
      `primaryKeyType` and `PKNotIdentity`. */
  datatype KeyInfo = KeyInfo(name: string, typeName: string, notIdentity: bool)

  /** Used when no property carries `[Key]`. */
  const DefaultKey: KeyInfo := KeyInfo("Id", "Int32", false)

  predicate HasKeyAttribute(p: Property) { p.isKey }

  predicate HasExplicitKeyAttribute(p: Property) { p.isExplicitKey }

  /** Property `i` is the first one carrying `[Key]`. */
  predicate FirstKeyAt(t: TypeDescriptor, i: int) {
    0 <= i < |t| && t[i].isKey && forall j :: 0 <= j < i ==> !t[j].isKey
  }

  /** Property `i` is the first one carrying `[ExplicitKey]`. */
  predicate FirstExplicitKeyAt(t: TypeDescriptor, i: int) {
    0 <= i < |t| && t[i].isExplicitKey && forall j :: 0 <= j < i ==> !t[j].isExplicitKey
  }

  /** The repository constructor: the first `[Key]` property, or "Id"/"Int32"
      when there is none; then the first `[ExplicitKey]` property, if any,
      overrides that choice and marks the key as not database-generated. */
  function ResolveKey(t: TypeDescriptor): (k: KeyInfo)
    ensures k.notIdentity <==> exists i :: 0 <= i < |t| && t[i].isExplicitKey
    ensures k.notIdentity ==>
      exists i :: FirstExplicitKeyAt(t, i) && k.name == t[i].name && k.typeName == t[i].typeName
    ensures !k.notIdentity && (exists i :: 0 <= i < |t| && t[i].isKey) ==>
      exists i :: FirstKeyAt(t, i) && k.name == t[i].name && k.typeName == t[i].typeName
    ensures (forall i :: 0 <= i < |t| ==> !t[i].isKey && !t[i].isExplicitKey) ==> k == DefaultKey
  {
    var fromKey :=
      match FirstWhere(t, HasKeyAttribute)
      case Some(i) => KeyInfo(t[i].name, t[i].typeName, false)
      case None => DefaultKey;
    match FirstWhere(t, HasExplicitKeyAttribute)
    case Some(j) => KeyInfo(t[j].name, t[j].typeName, true)
    case None => fromKey
  }

  /** A key taken from an annotation names a property of the class, so
      `GetProperty(primaryKeyName)` finds one; only the "Id" default can miss. */
  lemma AnnotatedKeyIsFound(t: TypeDescriptor)
    requires exists i :: 0 <= i < |t| && (t[i].isKey || t[i].isExplicitKey)
    ensures PropertyIndex(t, ResolveKey(t).name).Some?
  {
  }
}

=== FILE: repository.dfy ===
/**
 * `DapperRepository<TEntity>`: the key strategy fixed at construction, the
 * transactional `InsertAsync`, and the failure policies of the other CRUD
 * operations, over an abstract table.  The database is an oracle: it says
 * which steps throw and which identity value it generates.  A transaction is
 * a snapshot of the table that a rollback restores.
 */
module Repository {
  import opened Wrappers
  import opened Clr
  import opened Metadata
  import SqlText

  /** The rows of the entity's table. */
  type Table = seq<Entity>

  /** A repository instance: `entityName` (the class name, also used as the
      table name) and the key chosen by the constructor. */
  datatype Repo = Repo(entityName: string, entityType: TypeDescriptor, key: KeyInfo)

  /** The constructor; the connection string is not modelled. */
  function NewRepository(entityName: string, t: TypeDescriptor): Repo {
    Repo(entityName, t, ResolveKey(t))
  }

  /** How a call ends for its caller: a value, or an exception that escapes. */
  datatype Call<T> = Returned(value: T) | Threw

  /** The points in `InsertAsync` where the database can throw. */
  datatype Step = AtOpen | AtBegin | AtSelectMax | AtWrite | AtCommit | AtRollback

  /** One run of the database: the steps that throw, and the identity value
      the driver's `Insert` returns for a database-generated key. */
  datatype Driver = Driver(throwsAt: set<Step>, generatedId: int)

  /** The commands `InsertAsync` sends, in order. */
  datatype Command =
    | BeginTransaction
    | SelectMax(sql: string)
    | ContribInsert(row: Entity)
    | Execute(sql: string, args: Entity)
    | CommitTransaction
    | RollbackTransaction

  /** The end of the `try` block: it reached the commit with the table it
      wrote, or something threw. `entity` is the caller's object, which
      `SetValue` may already have changed. */
  datatype Attempt =
    | Committed(table: Table, entity: Entity, trace: seq<Command>)
    | Failed(entity: Entity, trace: seq<Command>)

  datatype InsertOutcome = InsertOutcome(
    result: Call<Option<Entity>>,
    table: Table,
    entity: Entity,
    trace: seq<Command>)

  /** The integer in the key column of a row, if it holds one. */
  function KeyColumn(row: Entity, keyName: string): Option<int> {
    match SlotIndex(row, keyName)
    case Some(i) => if row[i].value.Int? then Some(row[i].value.i) else None
    case None => None
  }

  /** `select max(K) from T`: NULLs are skipped; no value at all gives NULL (`None`). */
  function MaxKey(rows: Table, keyName: string): (m: Option<int>)
    ensures m.None? <==> forall j :: 0 <= j < |rows| ==> KeyColumn(rows[j], keyName).None?
    ensures m.Some? ==> exists j :: 0 <= j < |rows| && KeyColumn(rows[j], keyName) == m
    ensures m.Some? ==> forall j :: 0 <= j < |rows| && KeyColumn(rows[j], keyName).Some? ==>
      KeyColumn(rows[j], keyName).value <= m.value
  {
    if |rows| == 0 then None
    else
      var rest := MaxKey(rows[..|rows| - 1], keyName);
      var last := KeyColumn(rows[|rows| - 1], keyName);
      assert forall j :: 0 <= j < |rows| - 1 ==> rows[..|rows| - 1][j] == rows[j];
      if last.None? then rest
      else if rest.None? || rest.value < last.value then last
      else rest
  }

  /** `commit transaction`, the last statement of the `try` block. */
  function Commit(table: Table, e: Entity, trace: seq<Command>, d: Driver): (a: Attempt)
    ensures a.trace == trace + [CommitTransaction]
    ensures a.entity == e
    ensures a.Committed? <==> AtCommit !in d.throwsAt
    ensures a.Committed? ==> a.table == table
  {
    if AtCommit in d.throwsAt then Failed(e, trace + [CommitTransaction])
    else Committed(table, e, trace + [CommitTransaction])
  }

  /** The `try` block of `InsertAsync`, after `begin transaction`: dispatch on
      the key's type name and identity flag. */
  function TryInsert(r: Repo, db: Table, e: Entity, d: Driver): (a: Attempt)
    requires Conforms(e, r.entityType)
    ensures Conforms(a.entity, r.entityType)
    ensures |a.trace| > 0 && a.trace[0] == BeginTransaction
    ensures a.Committed? ==> a.trace[|a.trace| - 1] == CommitTransaction
    ensures a.Committed? ==> a.table == db || a.table == db + [a.entity]
    ensures forall i :: 0 <= i < |e| && a.entity[i] != e[i] ==> e[i].prop.name == r.key.name
  {
    if r.key.typeName == "Int32" then
      if r.key.notIdentity then ExplicitIntInsert(r, db, e, d)
      else IdentityIntInsert(r, db, e, d)
    else if r.key.typeName == "String" then StringKeyInsert(r, db, e, d)
    else Commit(db, e, [BeginTransaction], d)
  }

  /** An application-assigned `int` key: read `MAX(key)`, convert it, and
      set one more than it on the object before the row is written. */
  function ExplicitIntInsert(r: Repo, db: Table, e: Entity, d: Driver): (a: Attempt)
    requires Conforms(e, r.entityType)
    ensures Conforms(a.entity, r.entityType)
    ensures |a.trace| > 0 && a.trace[0] == BeginTransaction
    ensures a.Committed? ==> a.trace[|a.trace| - 1] == CommitTransaction
    ensures a.Committed? ==> a.table == db + [a.entity]
    ensures forall i :: 0 <= i < |e| && a.entity[i] != e[i] ==> e[i].prop.name == r.key.name
    ensures var asked := [BeginTransaction, SelectMax("select max(" + r.key.name + ") from " + r.entityName)];
      |a.trace| >= 2 && a.trace[..2] == asked
    ensures var asked := [BeginTransaction, SelectMax("select max(" + r.key.name + ") from " + r.entityName)];
      AtSelectMax in d.throwsAt || ConvertToInt32(MaxKey(db, r.key.name)).None? ==> a == Failed(e, asked)
  {
    var asked := [BeginTransaction, SelectMax("select max(" + r.key.name + ") from " + r.entityName)];
    if AtSelectMax in d.throwsAt then Failed(e, asked)
    else match ConvertToInt32(MaxKey(db, r.key.name))
      case None => Failed(e, asked)
      case Some(m) =>
        match PropertyIndex(r.entityType, r.key.name)
        case None => Failed(e, asked)
        case Some(i) => WriteNextKey(db, e, d, i, m, asked)
  }

  /** The end of the explicit-key path: set max + 1 (unchecked) on the key
      property, then write the row and commit.  A key property that does
      not take an `int` makes `SetValue` throw before anything is written. */
  function WriteNextKey(db: Table, e: Entity, d: Driver, i: nat, m: int, asked: seq<Command>): (a: Attempt)
    requires i < |e|
    ensures |a.trace| >= |asked| && a.trace[..|asked|] == asked
    ensures !AcceptsInt32(e[i].prop) ==> a == Failed(e, asked)
    ensures AcceptsInt32(e[i].prop) ==> a.entity == SetValue(e, i, Int(Wrap32(m + 1)))
    ensures AcceptsInt32(e[i].prop) ==>
      |a.trace| > |asked| && a.trace[..|asked| + 1] == asked + [ContribInsert(a.entity)]
    ensures a.Committed? <==> AcceptsInt32(e[i].prop) && AtWrite !in d.throwsAt && AtCommit !in d.throwsAt
    ensures a.Committed? ==> a.table == db + [a.entity]
  {
    match SetInt32(e, i, Wrap32(m + 1))
    case None => Failed(e, asked)
    case Some(e') =>
      var written := asked + [ContribInsert(e')];
      if AtWrite in d.throwsAt then Failed(e', written)
      else Commit(db + [e'], e', written, d)
  }

  /** A database-generated `int` key: write the row, then set the driver's
      id, cast to `int`, on the object.  A missing key property, or one whose
      type does not take an `int`, makes that `SetValue` throw. */
  function IdentityIntInsert(r: Repo, db: Table, e: Entity, d: Driver): (a: Attempt)
    requires Conforms(e, r.entityType)
    ensures Conforms(a.entity, r.entityType)
    ensures |a.trace| > 0 && a.trace[0] == BeginTransaction
    ensures a.Committed? ==> a.trace[|a.trace| - 1] == CommitTransaction
    ensures a.Committed? ==> a.table == db + [a.entity]
    ensures forall i :: 0 <= i < |e| && a.entity[i] != e[i] ==> e[i].prop.name == r.key.name
    ensures |a.trace| >= 2 && a.trace[..2] == [BeginTransaction, ContribInsert(e)]
    ensures AtWrite in d.throwsAt ==> a == Failed(e, [BeginTransaction, ContribInsert(e)])
  {
    var written := [BeginTransaction, ContribInsert(e)];
    if AtWrite in d.throwsAt then Failed(e, written)
    else match PropertyIndex(r.entityType, r.key.name)
      case None => Failed(e, written)
      case Some(i) =>
        match SetInt32(e, i, Wrap32(d.generatedId))
        case None => Failed(e, written)
        case Some(e') => Commit(db + [e'], e', written, d)
  }

  /** A `string` key: the object is left alone and the row is written with
      the helper's INSERT statement. */
  function StringKeyInsert(r: Repo, db: Table, e: Entity, d: Driver): (a: Attempt)
    ensures a.entity == e
    ensures |a.trace| > 0 && a.trace[0] == BeginTransaction
    ensures a.Committed? ==> a.trace[|a.trace| - 1] == CommitTransaction
    ensures a.Committed? ==> a.table == db + [e]
    ensures |a.trace| >= 2 && a.trace[..2] == [BeginTransaction, Execute(SqlText.InsertSql(e, r.entityName), e)]
    ensures AtWrite in d.throwsAt ==> a == Failed(e, [BeginTransaction, Execute(SqlText.InsertSql(e, r.entityName), e)])
  {
    var written := [BeginTransaction, Execute(SqlText.InsertSql(e, r.entityName), e)];
    if AtWrite in d.throwsAt then Failed(e, written)
    else Commit(db + [e], e, written, d)
  }

  /** `InsertAsync`.  Opening the connection and beginning the transaction
      happen outside the `try`; a failure inside it is rolled back and
      answered with null; a failing rollback lets its exception escape.  An
      uncommitted transaction never reaches the table. */
  function Insert(r: Repo, db: Table, e: Entity, d: Driver): (o: InsertOutcome)
    requires Conforms(e, r.entityType)
    ensures o.result.Returned? && o.result.value.Some? ==>
      && o.result.value.value == o.entity
      && |o.trace| > 0 && o.trace[|o.trace| - 1] == CommitTransaction
      && (o.table == db || o.table == db + [o.entity])
    ensures !(o.result.Returned? && o.result.value.Some?) ==> o.table == db
    ensures o.result == Returned(None) ==>
      |o.trace| > 0 && o.trace[|o.trace| - 1] == RollbackTransaction
    ensures Conforms(o.entity, r.entityType)
    ensures forall i :: 0 <= i < |e| && o.entity[i] != e[i] ==> e[i].prop.name == r.key.name
    ensures AtOpen in d.throwsAt ==> o == InsertOutcome(Threw, db, e, [])
    ensures AtOpen !in d.throwsAt && AtBegin in d.throwsAt ==> o == InsertOutcome(Threw, db, e, [BeginTransaction])
    ensures o.result == Threw <==>
      || AtOpen in d.throwsAt || AtBegin in d.throwsAt
      || (TryInsert(r, db, e, d).Failed? && AtRollback in d.throwsAt)
  {
    if AtOpen in d.throwsAt then InsertOutcome(Threw, db, e, [])
    else if AtBegin in d.throwsAt then InsertOutcome(Threw, db, e, [BeginTransaction])
    else match TryInsert(r, db, e, d)
      case Committed(t, e', trace) => InsertOutcome(Returned(Some(e')), t, e', trace)
      case Failed(e', trace) =>
        var rolledBack := trace + [RollbackTransaction];
        if AtRollback in d.throwsAt then InsertOutcome(Threw, db, e', rolledBack)
        else InsertOutcome(Returned(None), db, e', rolledBack)
  }

  /** What a single driver call does: throw, or give a value. */
  datatype DriverCall<T> = Throws | Gives(value: T)

  /** `DeleteAsync`: the driver answers whether a row went and the table
      after it; the repository reports only whether the driver threw. */
  function Delete(db: Table, e: Entity, d: DriverCall<(bool, Table)>): (o: (bool, Table))
    ensures o.0 <==> d.Gives?
    ensures !o.0 ==> o.1 == db
    ensures o.0 ==> o.1 == d.value.1
  {
    match d
    case Throws => (false, db)
    case Gives((_, after)) => (true, after)
  }

  /** `UpdateAsync`: the open is outside the `try`; a failing update is
      answered with null, a successful one with the object passed in. */
  function Update(db: Table, e: Entity, openThrows: bool, d: DriverCall<(bool, Table)>)
    : (o: (Call<Option<Entity>>, Table))
    ensures openThrows ==> o == (Threw, db)
    ensures !openThrows && d.Throws? ==> o == (Returned(None), db)
    ensures !openThrows && d.Gives? ==> o == (Returned(Some(e)), d.value.1)
  {
    if openThrows then (Threw, db)
    else match d
      case Throws => (Returned(None), db)
      case Gives((_, after)) => (Returned(Some(e)), after)
  }

  /** `GetAsync(string)`: the query text goes to the driver unchanged; a
      failure is answered with no rows. */
  function Query(run: string -> DriverCall<seq<Entity>>, query: string): (rows: seq<Entity>)
    ensures run(query).Throws? ==> rows == []
    ensures run(query).Gives? ==> rows == run(query).value
  {
    match run(query)
    case Throws => []
    case Gives(found) => found
  }

  /** `GetAllAsync`: neither the open nor the read is guarded, so a failure
      escapes to the caller; otherwise every row comes back. */
  function GetAll(db: Table, throws: bool): (o: Call<seq<Entity>>)
    ensures throws <==> o.Threw?
    ensures o.Returned? ==> forall row :: row in o.value <==> row in db
  {
    if throws then Threw else Returned(db)
  }

  // ---------------------------------------------------------------------
  // InsertAsync, path by path

  /** The key names a property of the class, and that property takes an `int`. */
  predicate KeyTakesInt32(r: Repo) {
    match PropertyIndex(r.entityType, r.key.name)
    case None => false
    case Some(i) => AcceptsInt32(r.entityType[i])
  }

  /** None of the given steps throws; steps a path never runs may. */
  predicate Survives(d: Driver, steps: set<Step>) {
    steps !! d.throwsAt
  }

  /** `SetValue` of an `int` on the key property of an object of the class
      succeeds exactly when the property takes an `int`, and then the key
      column of the object reads that `int`. */
  lemma SetKeyReadsBack(e: Entity, t: TypeDescriptor, keyName: string, v: int)
    requires Conforms(e, t) && PropertyIndex(t, keyName).Some?
    ensures var i := PropertyIndex(t, keyName).value;
      SetInt32(e, i, v).Some? <==> AcceptsInt32(t[i])
    ensures var i := PropertyIndex(t, keyName).value;
      SetInt32(e, i, v).Some? ==>
        Conforms(SetInt32(e, i, v).value, t) && KeyColumn(SetInt32(e, i, v).value, keyName) == Some(v)
  {
  }

  /** Below `int.MaxValue`, max + 1 does not wrap and is larger than, so
      different from, every key already in the table. */
  lemma MaxPlusOneIsFresh(db: Table, keyName: string, m: int)
    requires MaxKey(db, keyName) == Some(m) && m < Int32Max && InInt32(m)
    ensures Wrap32(m + 1) == m + 1
    ensures forall j :: 0 <= j < |db| ==> KeyColumn(db[j], keyName) != Some(m + 1)
  {
  }

  /** An `[ExplicitKey]` `int` key: the row is written with key max + 1
      (32-bit, unchecked), after the `select max` and before the commit. */
  lemma ExplicitIntKeyTakesMaxPlusOne(r: Repo, db: Table, e: Entity, d: Driver, m: int)
    requires Conforms(e, r.entityType) && Survives(d, {AtOpen, AtBegin, AtSelectMax, AtWrite, AtCommit})
    requires r.key.typeName == "Int32" && r.key.notIdentity && KeyTakesInt32(r)
    requires MaxKey(db, r.key.name) == Some(m) && InInt32(m)
    ensures var o := Insert(r, db, e, d);
      && o.result == Returned(Some(o.entity))
      && o.entity == SetValue(e, PropertyIndex(r.entityType, r.key.name).value, Int(Wrap32(m + 1)))
      && KeyColumn(o.entity, r.key.name) == Some(Wrap32(m + 1))
      && o.table == db + [o.entity]
      && o.trace == [BeginTransaction, SelectMax("select max(" + r.key.name + ") from " + r.entityName),
                     ContribInsert(o.entity), CommitTransaction]
  {
    var i := PropertyIndex(r.entityType, r.key.name).value;
    assert ConvertToInt32(MaxKey(db, r.key.name)) == Some(m);
    ExplicitKeySet(r, db, e, d, i, m);
    var asked := [BeginTransaction, SelectMax("select max(" + r.key.name + ") from " + r.entityName)];
    var e' := SetValue(e, i, Int(Wrap32(m + 1)));
    assert TryInsert(r, db, e, d) == Committed(db + [e'], e', asked + [ContribInsert(e')] + [CommitTransaction]);
    SetKeyReadsBack(e, r.entityType, r.key.name, Wrap32(m + 1));
  }

  /** On the explicit-key path, once `MAX` converts and the key property
      exists, the rest is `WriteNextKey`. */
  lemma ExplicitKeySet(r: Repo, db: Table, e: Entity, d: Driver, i: nat, m: int)
    requires Conforms(e, r.entityType)
    requires AtSelectMax !in d.throwsAt
    requires PropertyIndex(r.entityType, r.key.name) == Some(i)
    requires ConvertToInt32(MaxKey(db, r.key.name)) == Some(m)
    ensures i < |e|
    ensures ExplicitIntInsert(r, db, e, d)
         == WriteNextKey(db, e, d, i, m, [BeginTransaction, SelectMax("select max(" + r.key.name + ") from " + r.entityName)])
  {
  }

  /** A database-generated `int` key: the row is written first, then the
      driver's id, cast to `int`, is set on the object. */
  lemma IdentityIntKeyWrittenBack(r: Repo, db: Table, e: Entity, d: Driver)
    requires Conforms(e, r.entityType) && Survives(d, {AtOpen, AtBegin, AtWrite, AtCommit})
    requires r.key.typeName == "Int32" && !r.key.notIdentity && KeyTakesInt32(r)
    ensures var o := Insert(r, db, e, d);
      && o.result == Returned(Some(o.entity))
      && o.entity == SetValue(e, PropertyIndex(r.entityType, r.key.name).value, Int(Wrap32(d.generatedId)))
      && o.table == db + [o.entity]
      && o.trace == [BeginTransaction, ContribInsert(e), CommitTransaction]
    ensures KeyColumn(Insert(r, db, e, d).entity, r.key.name) == Some(Wrap32(d.generatedId))
  {
  }

  /** An `int` key that names no property (the "Id" default on a class
      without an `Id`), or names one that does not take an `int` (the default
      on a class with a `string Id`): its `SetValue` throws, so the insert is
      rolled back and never returns an object, whatever the database does.
      On the identity path the row was already sent, yet the table is kept. */
  lemma UnsettableIntKeyNeverInserts(r: Repo, db: Table, e: Entity, d: Driver)
    requires Conforms(e, r.entityType)
    requires r.key.typeName == "Int32" && !KeyTakesInt32(r)
    ensures var o := Insert(r, db, e, d);
      !(o.result.Returned? && o.result.value.Some?) && o.table == db && o.entity == e
  {
  }

  /** A `string` key: the object is not touched, and the row is written by
      the helper's INSERT text with the object as parameter source. */
  lemma StringKeyUsesHelperStatement(r: Repo, db: Table, e: Entity, d: Driver)
    requires Conforms(e, r.entityType) && Survives(d, {AtOpen, AtBegin, AtWrite, AtCommit})
    requires r.key.typeName == "String"
    ensures var o := Insert(r, db, e, d);
      && o.result == Returned(Some(e))
      && o.entity == e
      && o.table == db + [e]
      && o.trace == [BeginTransaction, Execute(SqlText.InsertSql(e, r.entityName), e), CommitTransaction]
  {
  }

  /** Any other key type name (`Int64`, `Guid`, `Nullable`1`, ...): nothing
      is written, yet the transaction commits and the object comes back. */
  lemma OtherKeyTypeWritesNothing(r: Repo, db: Table, e: Entity, d: Driver)
    requires Conforms(e, r.entityType) && Survives(d, {AtOpen, AtBegin, AtCommit})
    requires r.key.typeName != "Int32" && r.key.typeName != "String"
    ensures var o := Insert(r, db, e, d);
      && o.result == Returned(Some(e))
      && o.table == db
      && o.trace == [BeginTransaction, CommitTransaction]
  {
  }

  /** A step of the `try` block that throws before the commit (the
      `select max` of the explicit path, or the row write of any `int` or
      `string` path) is answered with a rollback and null, and the table
      stays as it was. */
  lemma StepFailureIsRolledBack(r: Repo, db: Table, e: Entity, d: Driver)
    requires Conforms(e, r.entityType)
    requires AtOpen !in d.throwsAt && AtBegin !in d.throwsAt && AtRollback !in d.throwsAt
    requires || (AtWrite in d.throwsAt && (r.key.typeName == "Int32" || r.key.typeName == "String"))
             || (AtSelectMax in d.throwsAt && r.key.typeName == "Int32" && r.key.notIdentity)
    ensures var o := Insert(r, db, e, d);
      && o.result == Returned(None)
      && o.table == db
      && |o.trace| > 0 && o.trace[|o.trace| - 1] == RollbackTransaction
  {
  }

  /** Whatever path the insert took, a failing commit is answered with a
      rollback and null, and the table stays as it was. */
  lemma FailedCommitRollsBack(r: Repo, db: Table, e: Entity, d: Driver)
    requires Conforms(e, r.entityType)
    requires AtCommit in d.throwsAt
    requires AtOpen !in d.throwsAt && AtBegin !in d.throwsAt && AtRollback !in d.throwsAt
    ensures var o := Insert(r, db, e, d);
      && o.result == Returned(None)
      && o.table == db
      && o.trace[0] == BeginTransaction
      && o.trace[|o.trace| - 1] == RollbackTransaction
  {
  }

  /** The explicit-key path sets the new key before writing; if the write
      throws, the table is restored but the caller's object keeps that key. */
  lemma ExplicitKeyOutlivesRollback(r: Repo, db: Table, e: Entity, d: Driver, m: int)
    requires Conforms(e, r.entityType)
    requires AtWrite in d.throwsAt && Survives(d, {AtOpen, AtBegin, AtSelectMax, AtRollback})
    requires r.key.typeName == "Int32" && r.key.notIdentity && KeyTakesInt32(r)
    requires MaxKey(db, r.key.name) == Some(m) && InInt32(m)
    ensures var o := Insert(r, db, e, d);
      && o.result == Returned(None)
      && o.table == db
      && o.entity == SetValue(e, PropertyIndex(r.entityType, r.key.name).value, Int(Wrap32(m + 1)))
  {
    var i := PropertyIndex(r.entityType, r.key.name).value;
    assert ConvertToInt32(MaxKey(db, r.key.name)) == Some(m);
    ExplicitKeySet(r, db, e, d, i, m);
    var asked := [BeginTransaction, SelectMax("select max(" + r.key.name + ") from " + r.entityName)];
    var e' := SetValue(e, i, Int(Wrap32(m + 1)));
    assert TryInsert(r, db, e, d) == Failed(e', asked + [ContribInsert(e')]);
    FailureIsRolledBack(r, db, e, d, e', asked + [ContribInsert(e')]);
  }

  /** A failure inside the `try` block, with a rollback that succeeds, is
      answered with null; the table is the one before the insert, and the
      object is whatever the failed block left it as. */
  lemma FailureIsRolledBack(r: Repo, db: Table, e: Entity, d: Driver, e': Entity, trace: seq<Command>)
    requires Conforms(e, r.entityType)
    requires AtOpen !in d.throwsAt && AtBegin !in d.throwsAt && AtRollback !in d.throwsAt
    requires TryInsert(r, db, e, d) == Failed(e', trace)
    ensures Insert(r, db, e, d) == InsertOutcome(Returned(None), db, e', trace + [RollbackTransaction])
  {
  }

  /** A successful insert through either `int` path or the `string` path is
      read back by `GetAllAsync`: the returned object is a row of the table. */
  lemma InsertThenGetAll(r: Repo, db: Table, e: Entity, d: Driver)
    requires Conforms(e, r.entityType)
    requires r.key.typeName == "Int32" || r.key.typeName == "String"
    requires var o := Insert(r, db, e, d); o.result.Returned? && o.result.value.Some?
    ensures var o := Insert(r, db, e, d);
      && o.table == db + [o.entity]
      && GetAll(o.table, false) == Returned(db + [o.entity])
      && o.result.value.value in GetAll(o.table, false).value
  {
  }
}

=== FILE: sql_text.dfy ===
/**
 * `DapperSqlHelper`: parameterised INSERT and UPDATE text built from an
 * object's properties.  A `Nullable<T>` property is written only while it
 * holds a value; any other property is written unless its getter is virtual
 * (a navigation property such as `Album.Tracks`); the UPDATE also leaves the
 * key out of its SET list.
 *
 * The methods follow the code step by step (append "x, " per property, then
 * cut the last two characters); the functions say what the result is.
 */
module SqlText {
  import opened Metadata

  const Separator: string := ", "

  /** INSERT rule for one property. */
  predicate InInsert(s: Slot) {
    if s.prop.IsNullable() then s.value != Null else !s.prop.isVirtual
  }

  /** UPDATE rule for one property: the key test sits on the non-nullable branch only. */
  predicate InUpdateSet(s: Slot, keyName: string) {
    if s.prop.IsNullable() then s.value != Null else !s.prop.isVirtual && s.prop.name != keyName
  }

  function UpdateRule(keyName: string): Slot -> bool {
    (s: Slot) => InUpdateSet(s, keyName)
  }

  /** The properties of `e` that `p` keeps, in declaration order. */
  function Written(e: Entity, p: Slot -> bool): (w: seq<Slot>)
    ensures |w| <= |e|
    ensures forall s :: s in w <==> s in e && p(s)
  {
    if |e| == 0 then []
    else
      var init := e[..|e| - 1];
      assert e == init + [e[|e| - 1]];
      Written(init, p) + (if p(e[|e| - 1]) then [e[|e| - 1]] else [])
  }

  function Names(w: seq<Slot>): (ns: seq<string>)
    ensures |ns| == |w|
  {
    seq(|w|, i requires 0 <= i < |w| => w[i].prop.name)
  }

  /** Columns of the INSERT, in declaration order. */
  function InsertColumns(e: Entity): seq<string> {
    Names(Written(e, InInsert))
  }

  /** Columns of the UPDATE's SET list, in declaration order. */
  function SetColumns(e: Entity, keyName: string): seq<string> {
    Names(Written(e, UpdateRule(keyName)))
  }

  function Placeholders(cols: seq<string>): (ps: seq<string>)
    ensures |ps| == |cols|
  {
    seq(|cols|, i requires 0 <= i < |cols| => "@" + cols[i])
  }

  function Assignments(cols: seq<string>): (as_: seq<string>)
    ensures |as_| == |cols|
  {
    seq(|cols|, i requires 0 <= i < |cols| => cols[i] + " = @" + cols[i])
  }

  /** `items` with `sep` between consecutive items. */
  function Join(items: seq<string>, sep: string): string {
    if |items| == 0 then ""
    else if |items| == 1 then items[0]
    else Join(items[..|items| - 1], sep) + sep + items[|items| - 1]
  }

  /** `items` each followed by `sep`: what the builders' loops accumulate. */
  function Terminated(items: seq<string>, sep: string): string {
    if |items| == 0 then ""
    else Terminated(items[..|items| - 1], sep) + (items[|items| - 1] + sep)
  }

  /** The INSERT text.  With no column left, cutting two characters removes
      the " (" after the table name instead of a trailing separator. */
  function InsertSql(e: Entity, table: string): string {
    var cols := InsertColumns(e);
    if |cols| == 0 then "insert into " + table + ") values)"
    else
      "insert into " + table + " (" + Join(cols, Separator) + ") values ("
      + Join(Placeholders(cols), Separator) + ")"
  }

  /** The UPDATE text.  With an empty SET list, the cut eats the "t " of "set ". */
  function UpdateSql(e: Entity, table: string, keyName: string): string {
    var cols := SetColumns(e, keyName);
    (if |cols| == 0 then "update " + table + " se"
     else "update " + table + " set " + Join(Assignments(cols), Separator))
    + " where " + keyName + " = @" + keyName
  }

  // ---------------------------------------------------------------------
  // Text lemmas

  /** Appending one more item to a terminated list, behind any prefix. */
  lemma PrefixTerminatedSnoc(prefix: string, items: seq<string>, x: string, sep: string)
    ensures prefix + Terminated(items + [x], sep) == prefix + Terminated(items, sep) + (x + sep)
  {
  }

  lemma {:induction false} TerminatedIsJoinThenSep(items: seq<string>, sep: string)
    requires |items| > 0
    ensures Terminated(items, sep) == Join(items, sep) + sep
  {
    if |items| > 1 {
      TerminatedIsJoinThenSep(items[..|items| - 1], sep);
    } else {
      assert items[..0] == [];
    }
  }

  /** The source's `Substring(0, Length - 2)` after a loop that appended
      `items`, each followed by ", ": the trailing separator goes when there
      is one; otherwise the last two characters of `prefix` go. */
  lemma CutSeparator(prefix: string, items: seq<string>)
    requires |prefix| >= 2
    ensures var t := prefix + Terminated(items, Separator);
      |t| >= 2 && t[..|t| - 2] == CutResult(prefix, items)
  {
    if |items| > 0 {
      TerminatedIsJoinThenSep(items, Separator);
      var a := prefix + Join(items, Separator);
      assert prefix + Terminated(items, Separator) == a + Separator;
      assert (a + Separator)[..|a|] == a;
    } else {
      assert prefix + Terminated(items, Separator) == prefix;
    }
  }

  function CutResult(prefix: string, items: seq<string>): string
    requires |prefix| >= 2
  {
    if |items| > 0 then prefix + Join(items, Separator) else prefix[..|prefix| - 2]
  }

  lemma WrittenSnoc(e: Entity, p: Slot -> bool, i: nat)
    requires i < |e|
    ensures Names(Written(e[..i + 1], p))
         == Names(Written(e[..i], p)) + (if p(e[i]) then [e[i].prop.name] else [])
  {
    assert e[..i + 1][..i] == e[..i];
    var w := Written(e[..i], p);
    if p(e[i]) {
      assert Names(w + [e[i]]) == Names(w) + [e[i].prop.name];
    } else {
      assert w + [] == w;
    }
  }

  lemma PlaceholdersSnoc(cols: seq<string>, c: string)
    ensures Placeholders(cols + [c]) == Placeholders(cols) + ["@" + c]
  {
  }

  lemma AssignmentsSnoc(cols: seq<string>, c: string)
    ensures Assignments(cols + [c]) == Assignments(cols) + [c + " = @" + c]
  {
  }

  /** One more property of the INSERT loop: its "Name, " is appended when written. */
  lemma InsertColumnsStep(e: Entity, i: nat, prefix: string)
    requires i < |e|
    ensures prefix + Terminated(InsertColumns(e[..i + 1]), Separator)
         == if InInsert(e[i]) then prefix + Terminated(InsertColumns(e[..i]), Separator) + (e[i].prop.name + Separator)
            else prefix + Terminated(InsertColumns(e[..i]), Separator)
  {
    WrittenSnoc(e, InInsert, i);
    var cols := InsertColumns(e[..i]);
    if InInsert(e[i]) {
      assert InsertColumns(e[..i + 1]) == cols + [e[i].prop.name];
      PrefixTerminatedSnoc(prefix, cols, e[i].prop.name, Separator);
    } else {
      assert InsertColumns(e[..i + 1]) == cols;
    }
  }

  /** One more property of the VALUES loop: its "@Name, " is appended when written. */
  lemma PlaceholdersStep(e: Entity, i: nat, prefix: string)
    requires i < |e|
    ensures prefix + Terminated(Placeholders(InsertColumns(e[..i + 1])), Separator)
         == if InInsert(e[i]) then prefix + Terminated(Placeholders(InsertColumns(e[..i])), Separator) + ("@" + e[i].prop.name + Separator)
            else prefix + Terminated(Placeholders(InsertColumns(e[..i])), Separator)
  {
    WrittenSnoc(e, InInsert, i);
    var cols := InsertColumns(e[..i]);
    if InInsert(e[i]) {
      var n := e[i].prop.name;
      assert InsertColumns(e[..i + 1]) == cols + [n];
      PlaceholdersSnoc(cols, n);
      assert Placeholders(InsertColumns(e[..i + 1])) == Placeholders(cols) + ["@" + n];
      PrefixTerminatedSnoc(prefix, Placeholders(cols), "@" + n, Separator);
    } else {
      assert InsertColumns(e[..i + 1]) == cols;
    }
  }

  /** One more property of the SET loop: its "Name = @Name, " is appended when written. */
  lemma AssignmentsStep(e: Entity, keyName: string, i: nat, prefix: string)
    requires i < |e|
    ensures prefix + Terminated(Assignments(SetColumns(e[..i + 1], keyName)), Separator)
         == if InUpdateSet(e[i], keyName)
            then prefix + Terminated(Assignments(SetColumns(e[..i], keyName)), Separator)
                 + (e[i].prop.name + " = @" + e[i].prop.name + Separator)
            else prefix + Terminated(Assignments(SetColumns(e[..i], keyName)), Separator)
  {
    WrittenSnoc(e, UpdateRule(keyName), i);
    var n := e[i].prop.name;
    var cols := SetColumns(e[..i], keyName);
    if InUpdateSet(e[i], keyName) {
      assert SetColumns(e[..i + 1], keyName) == cols + [n];
      AssignmentsSnoc(cols, n);
      assert Assignments(SetColumns(e[..i + 1], keyName)) == Assignments(cols) + [n + " = @" + n];
      PrefixTerminatedSnoc(prefix, Assignments(cols), n + " = @" + n, Separator);
    } else {
      assert SetColumns(e[..i + 1], keyName) == cols;
    }
  }

  /** What the INSERT loops and cuts leave is `InsertSql`. */
  lemma InsertAssembled(e: Entity, table: string, head: string, mid: string)
    requires head == "insert into " + table + " ("
    requires mid == CutResult(head, InsertColumns(e)) + ") values ("
    ensures CutResult(mid, Placeholders(InsertColumns(e))) + ")" == InsertSql(e, table)
  {
  }

  /** What the UPDATE loop, cut and WHERE clause leave is `UpdateSql`. */
  lemma UpdateAssembled(e: Entity, table: string, keyName: string)
    ensures var head := "update " + table + " set ";
      |head| >= 2
      && CutResult(head, Assignments(SetColumns(e, keyName))) + " where " + keyName + " = @" + keyName
         == UpdateSql(e, table, keyName)
  {
  }

  // ---------------------------------------------------------------------
  // The builders as the helper class writes them

  /** The first pass of `GetDapperInsertStatement`: "Name, " per written property. */
  method AppendColumnNames(e: Entity, head: string) returns (sql: string)
    ensures sql == head + Terminated(InsertColumns(e), Separator)
  {
    sql := head;
    var i := 0;
    while i < |e|
      invariant 0 <= i <= |e|
      invariant sql == head + Terminated(InsertColumns(e[..i]), Separator)
    {
      InsertColumnsStep(e, i, head);
      var s := e[i];
      if s.prop.IsNullable() {
        if s.value != Null {
          sql := sql + (s.prop.name + Separator);
        }
      } else if !s.prop.isVirtual {
        sql := sql + (s.prop.name + Separator);
      }
      i := i + 1;
    }
    assert e[..|e|] == e;
  }

  /** The second pass of `GetDapperInsertStatement`: "@Name, " per written property. */
  method AppendParameterNames(e: Entity, head: string) returns (sql: string)
    ensures sql == head + Terminated(Placeholders(InsertColumns(e)), Separator)
  {
    sql := head;
    var i := 0;
    while i < |e|
      invariant 0 <= i <= |e|
      invariant sql == head + Terminated(Placeholders(InsertColumns(e[..i])), Separator)
    {
      PlaceholdersStep(e, i, head);
      var s := e[i];
      if s.prop.IsNullable() {
        if s.value != Null {
          sql := sql + ("@" + s.prop.name + Separator);
        }
      } else if !s.prop.isVirtual {
        sql := sql + ("@" + s.prop.name + Separator);
      }
      i := i + 1;
    }
    assert e[..|e|] == e;
  }

  /** `GetDapperInsertStatement`: the column pass, a two-character cut,
      ") values (", the parameter pass, another cut and ")". */
  method GetInsertStatement(e: Entity, table: string) returns (sql: string)
    ensures sql == InsertSql(e, table)
  {
    var head := "insert into " + table + " (";
    sql := AppendColumnNames(e, head);
    CutSeparator(head, InsertColumns(e));
    sql := sql[..|sql| - 2];
    sql := sql + ") values (";
    var mid := sql;
    sql := AppendParameterNames(e, mid);
    CutSeparator(mid, Placeholders(InsertColumns(e)));
    sql := sql[..|sql| - 2] + ")";
    InsertAssembled(e, table, head, mid);
  }

  /** `GetDapperUpdateStatement`: appends "Name = @Name, " per SET property,
      cuts two characters, then appends the WHERE clause on the key. */
  method GetUpdateStatement(e: Entity, table: string, keyName: string) returns (sql: string)
    ensures sql == UpdateSql(e, table, keyName)
  {
    var head := "update " + table + " set ";
    sql := head;
    var i := 0;
    while i < |e|
      invariant 0 <= i <= |e|
      invariant sql == head + Terminated(Assignments(SetColumns(e[..i], keyName)), Separator)
    {
      AssignmentsStep(e, keyName, i, head);
      var s := e[i];
      if s.prop.IsNullable() {
        if s.value != Null {
          sql := sql + (s.prop.name + " = @" + s.prop.name + Separator);
        }
      } else if !s.prop.isVirtual {
        if s.prop.name != keyName {
          sql := sql + (s.prop.name + " = @" + s.prop.name + Separator);
        }
      }
      i := i + 1;
    }
    assert e[..|e|] == e;
    UpdateAssembled(e, table, keyName);
    CutSeparator(head, Assignments(SetColumns(e, keyName)));
    sql := sql[..|sql| - 2];
    sql := sql + " where " + keyName + " = @" + keyName;
  }

  // ---------------------------------------------------------------------
  // What the builders promise

  /** A `Nullable<T>` property is written exactly when it holds a value, in
      the INSERT and in the SET list alike; for the SET list this holds even
      when the property is named like the key. */
  lemma NullableWrittenIffHasValue(e: Entity, keyName: string, i: nat)
    requires i < |e| && e[i].prop.IsNullable()
    ensures e[i] in Written(e, InInsert) <==> e[i].value != Null
    ensures e[i] in Written(e, UpdateRule(keyName)) <==> e[i].value != Null
  {
  }

  /** A non-nullable property with a virtual getter (a navigation property)
      is never written by either statement. */
  lemma NavigationNeverWritten(e: Entity, keyName: string)
    ensures forall s :: s in Written(e, InInsert) ==> s.prop.IsNullable() || !s.prop.isVirtual
    ensures forall s :: s in Written(e, UpdateRule(keyName)) ==> s.prop.IsNullable() || !s.prop.isVirtual
  {
  }

  /** The INSERT writes every non-nullable, non-virtual property, the key
      included; the SET list writes such a property exactly when it is not
      named like the key. */
  lemma PlainPropertiesWritten(e: Entity, keyName: string, i: nat)
    requires i < |e| && !e[i].prop.IsNullable() && !e[i].prop.isVirtual
    ensures e[i] in Written(e, InInsert)
    ensures e[i] in Written(e, UpdateRule(keyName)) <==> e[i].prop.name != keyName
  {
  }

  /** What the builders can see of one property. */
  datatype Shape = Shape(name: string, nullable: bool, isVirtual: bool, hasValue: bool)

  function ShapeOf(s: Slot): Shape {
    Shape(s.prop.name, s.prop.IsNullable(), s.prop.isVirtual, s.value != Null)
  }

  lemma {:induction false} WrittenNamesAgree(e1: Entity, e2: Entity, p: Slot -> bool)
    requires |e1| == |e2|
    requires forall i :: 0 <= i < |e1| ==> e1[i].prop.name == e2[i].prop.name && p(e1[i]) == p(e2[i])
    ensures Names(Written(e1, p)) == Names(Written(e2, p))
    decreases |e1|
  {
    if |e1| > 0 {
      var n := |e1| - 1;
      WrittenNamesAgree(e1[..n], e2[..n], p);
      WrittenSnoc(e1, p, n);
      WrittenSnoc(e2, p, n);
      assert e1[..n + 1] == e1 && e2[..n + 1] == e2;
    }
  }

  /** Both texts depend only on each property's name, nullability, virtual
      getter and nullness, and on the table and key names: never on a value
      itself, so values travel only as `@Name` parameters and repeated calls
      give the same text. */
  lemma SameShapeSameSql(e1: Entity, e2: Entity, table: string, keyName: string)
    requires |e1| == |e2|
    requires forall i :: 0 <= i < |e1| ==> ShapeOf(e1[i]) == ShapeOf(e2[i])
    ensures InsertSql(e1, table) == InsertSql(e2, table)
    ensures UpdateSql(e1, table, keyName) == UpdateSql(e2, table, keyName)
  {
    WrittenNamesAgree(e1, e2, InInsert);
    WrittenNamesAgree(e1, e2, UpdateRule(keyName));
  }
}

=== FILE: wrappers.dfy ===
/** Optional values, standing in for the references the source leaves null. */
module Wrappers {

  datatype Option<+T> = None | Some(value: T)
}
